=== FILE: README.md ===
# AIComposer MIDI translation, modelled in Dafny

AIComposer converts between a flat MIDI event stream, as Apple's
AudioToolbox sequencing engine stores it, and a structured composition
(parts → measures → notes, with tempo, key and chord per measure). This
project models both directions of that translation over plain in-memory
data and proves what the translation promises.

- **Import** (`MIDIFileParser.swift`): from a loaded sequence, the
  time-signature meta events of the tempo track, a record per note event of
  every track (with its bar/beat position), the marker time stamps (channel
  messages whose `data1` is 20), and the sequence's time resolution. The
  suffix rule for output paths (`.mid`) is modelled too.
- **Export** (`MusicComposition.swift`): the run-length-compressed tempo
  track taken from part 0, one event track per part (three set-up channel
  events, the transposed notes, a trailing silent pad note), the part
  exchange, the chord-progression summary string, and the composition's
  initialiser that ties them together.

Files and modules:

| file | module | contents |
|---|---|---|
| `seqs.dfy` | `Seqs` | `Option`, `FilterMap` (the shape of every event scan), `Hits`, `Flatten`, `Count`, `Contains`, and generic lemmas about them |
| `midi_events.dfy` | `MidiEvents` | byte types, note / channel / meta messages, the `Event` tagged union, `BarBeatTime` |
| `midi_file_parser.dfy` | `MidiFileParser` | the import scans as loop methods, the suffix rule, exactness lemmas |
| `composition.dfy` | `Composition` | composition datatypes, the export builder, tempo compression, chord string, part exchange, their lemmas |
| `round_trip.dfy` | `RoundTrip` | what the import scan recovers from an exported part track |

How the engine is replaced:

- A loaded sequence is a `MusicSequence` value: the tempo track and the note
  tracks as `seq<Event>`, the time-resolution property as a number, and the
  engine's `MusicSequenceBeatsToBarBeatTime` as an uninterpreted function
  value `(real, UInt32) -> BarBeatTime`.
- The engine's event iterator becomes an index walking a sequence; each
  event is decoded once into the `Event` union (`NoteEvent`, `MetaEvent`,
  `ChannelEvent`, `OtherEvent` for every kind the translator ignores).
- An exported track is the sequence of events in the order the builder
  inserts them.
- Time stamps, tempos and durations are `real`. The byte and 32-bit fields
  of note, channel and meta messages are integer subset types, so a message
  with an out-of-range field cannot be built. The fields of `BarBeatTime`
  are plain integers: the engine produces them and the model never inspects
  them.
- The places where the Swift code traps (`UInt8(partIndex)`, `0xC0 +
  partNumber`, `UInt8(note + keySig)`, `measures[count - 1]` on an empty
  part) are preconditions of the export functions: at most 64 parts, every
  transposed pitch in 0..255, every part with at least one measure.

Two facts about the code that shape the model:

- A time-signature entry stores the meta event's first data byte twice, as
  both `numbeats` and `lengthOfBeat`.
- With no parts nothing is built, not even a tempo track, and `tempo` and
  `numberOfParts` stay unset.

Behaviour reproduced as written, though probably unintended:

- The program-change status byte is `0xC0 + partIndex`. For parts 0-15 this
  selects channel `partIndex`. From part 16 on the addition carries into the
  high nibble: parts 16-31 get status `0xD_` (channel pressure), 32-47
  `0xE_` (pitch bend) and 48-63 `0xF_` (a system status). They send no
  program change at all (`Composition.SetupEvents`,
  `Composition.ProgramChangeStatusCarries`).
- The import scan treats any channel message with `data1 == 20` as a marker,
  whatever its status. So scanning the in-memory export of a part whose sound
  preset is 20 yields a marker at time 0 (`RoundTrip.ExportedPartMarkers`).
- `exchangeMusicPart` does not rebuild the stored sequence, which keeps
  describing the old part (`Composition.ExchangeMusicPart`).

## Model

| member | source | states |
|---|---|---|
| `MidiFileParser.ParseTempoTrack` | AIComposer/MIDIFileParser.swift:62-103 | The time-signature list is the scan of the tempo track that keeps only meta events of type 0x58, in order; every entry has `numbeats == lengthOfBeat`; the resolution returned is the sequence's time-resolution property. |
| `MidiFileParser.TimeSignaturesExact` | AIComposer/MIDIFileParser.swift:87-101 | The time-signature entries correspond one to one, in strictly increasing track position, to the tempo-track meta events of type 0x58, each built from that event's first data byte and its own time stamp; every such event is included; their number is the count of such events. |
| `MidiFileParser.ParseTrackForMidiEvents` | AIComposer/MIDIFileParser.swift:122-159 | One pass over a track yields its note records and, separately, its marker time stamps; every note record's bar/beat position is the conversion of its own time stamp at the given resolution. |
| `MidiFileParser.NoteRecordsExact` | AIComposer/MIDIFileParser.swift:141-147 | Each note event of a track yields exactly one record `(message, barBeat(timestamp, resolution), timestamp)`, in encounter order, and nothing else yields one; the record count equals the number of note events. |
| `MidiFileParser.MarkersExact` | AIComposer/MIDIFileParser.swift:148-153 | The markers are exactly the time stamps of the channel messages whose `data1` is 20, in encounter order; their number is the count of such messages. |
| `MidiFileParser.ChannelMessageStep` | AIComposer/MIDIFileParser.swift:148-153 | Scanning one more channel message adds one marker at its time stamp if and only if its `data1` is 20, whatever its status and `data2`, and adds no note. |
| `MidiFileParser.OtherEventStep` | AIComposer/MIDIFileParser.swift:141-158 | Scanning one more event of an uninterpreted kind changes neither the notes, nor the markers, nor the time signatures: such events are skipped without error. |
| `MidiFileParser.ParseMidiEventTracks` | AIComposer/MIDIFileParser.swift:161-185 | The combined notes (and, separately, markers) are the per-track results concatenated for track indices 0 up to the track count, in index order, which equals scanning the concatenation of all tracks; nothing is re-sorted by time. |
| `Seqs.FilterMapEachFlatten` | AIComposer/MIDIFileParser.swift:176-184 | Concatenating per-track scan results in track order equals scanning the concatenated tracks. |
| `MidiFileParser.LoadMidiFile` | AIComposer/MIDIFileParser.swift:29-48 | The returned resolution is the tempo track's time-resolution property, and every returned note's bar/beat position was computed with that same resolution; notes, markers and time signatures are the scans above. |
| `MidiFileParser.MidiFilePath` | AIComposer/MIDIFileParser.swift:54-56 | The output path always contains `.mid`; a path already containing `.mid` anywhere is kept, any other gets `.mid` appended. |
| `MidiFileParser.MidiFilePathIdempotent` | AIComposer/MIDIFileParser.swift:54-56 | Applying the suffix rule twice equals applying it once. |
| `Composition.TruncateToInt` | AIComposer/MusicComposition.swift:132 | The stored integer tempo is the measure tempo truncated toward zero: within one below a non-negative value, within one above a negative one. |
| `Composition.CreateMusicSequence` | AIComposer/MusicComposition.swift:107-134 | With zero parts the composition is unchanged (no sequence, `tempo` and `numberOfParts` untouched); otherwise the sequence is the export of the parts, `numberOfParts` is the part count and `tempo` the truncated tempo of part 0's first measure. |
| `Composition.ExportLayout` | AIComposer/MusicComposition.swift:118-128 | For `Composition.ExportSequence`: the tempo track comes from part 0's measures only; there is one track per part, in part order, and track `i` is exactly the part track built for part `i` with index `i` (so `Composition.PartTrackLayout` describes every event of it): three set-up events, its part's notes and the pad, with the program change carrying status `0xC0 + i` and the part's preset. |
| `Composition.TempoTrackShape` | AIComposer/MusicComposition.swift:118-125 | `Composition.TempoTrack` (event 0 plus the loop `Composition.TempoEventsSince`): the tempo track is an event at time 0 with the first measure's tempo followed by one event per measure whose tempo differs from the previous measure's, at that measure's first beat; its length is one plus the number of tempo changes; neighbouring events never carry equal tempos; the last event carries the last measure's tempo. |
| `Composition.TempoEventsMatchAdjacent` | AIComposer/MusicComposition.swift:120-125 | The loop as written, `Composition.TempoEventsSince`, compares each measure's tempo with the last tempo emitted; this emits the same events as comparing it with the previous measure's tempo. |
| `Composition.TempoEventsSinceShape` | AIComposer/MusicComposition.swift:120-125 | For `Composition.TempoEventsSince`: the loop's first emitted tempo differs from the starting tempo, consecutive emitted tempos differ, and the last tempo emitted (or the starting one) is the last measure's tempo. |
| `Composition.ConstantTempoSingleEvent` | AIComposer/MusicComposition.swift:118-125 | A part with one tempo throughout gives a tempo track of exactly one event, at time 0. |
| `Composition.TempoCompressionExample` | AIComposer/MusicComposition.swift:118-125 | Six four-beat measures at 120, 120, 120, 90, 90, 120 give three tempo events, at beats 0, 12 and 20, never six. |
| `Composition.NoteEvents` | AIComposer/MusicComposition.swift:149-160 | The note body has exactly one event per note of the part's measures. |
| `Composition.AddPartToSequence` | AIComposer/MusicComposition.swift:136-165 | A part track holds 3 set-up events, one event per note and one pad event. |
| `Composition.PartTrackLayout` | AIComposer/MusicComposition.swift:136-165 | For `Composition.AddPartToSequence`, whose first three events are `Composition.SetupEvents`: a part track starts with `(0xB0, 0, 0)`, `(0xB0, 32, 0)`, `(0xC0 + partIndex, preset, 0)` at time 0; measure `i`'s notes follow the notes of measures before it, in their own order, each at its own time stamp with pitch `note + keySig` and channel, velocity, release velocity and duration unchanged; the last event is the silent note (0, 0, 0, 0, 2.0) at the last measure's first beat plus its beat count plus 3. |
| `Composition.NoteEventAt` | AIComposer/MusicComposition.swift:149-160 | Note `j` of measure `i` is exported at position `TotalNotes(measures 0..i-1) + j` of the note body, transposed by its measure's key offset. |
| `Composition.PadFollowsContent` | AIComposer/MusicComposition.swift:161-164 | When measures are back to back and every note lies inside its measure, the pad note comes more than three beats after every note of the part. |
| `Composition.GenerateChordProgressionString` | AIComposer/MusicComposition.swift:167-174 | With no parts the summary string is unchanged; otherwise it becomes the old string, then part 0's chord segments (one per measure, see `Composition.ChordSegmentAt`), then `END`; nothing else in the composition changes. |
| `Composition.ChordSegmentAt` | AIComposer/MusicComposition.swift:169-171 | Measure `i`'s chord name followed by ` ➝ ` sits right after the segments of the measures before it: one segment per measure of part 0, in measure order. |
| `Composition.ChordSegmentsAppend` | AIComposer/MusicComposition.swift:169-171 | The segments of two runs of measures are the concatenation of their segments. |
| `Composition.NewComposition` | AIComposer/MusicComposition.swift:67-74 | A new composition keeps its name, parts and measure count; with parts its sequence is the export of those parts, `numberOfParts` is the part count, `tempo` is part 0's first measure tempo truncated toward zero, and the chord string is part 0's segments followed by `END`; with no parts it has no sequence, unset tempo and part count, and an empty chord string. |
| `Composition.ExchangeMusicPart` | AIComposer/MusicComposition.swift:176-180 | For a valid index, the old part at that index is returned, the new part is stored there, every other index and the part count are unchanged, and no other field of the composition changes. |
| `Composition.ExchangeMusicPartRestores` | AIComposer/MusicComposition.swift:176-180 | Exchanging the displaced part back in restores the original composition and returns the part that was put in. |
| `RoundTrip.ExportedPartNotes` | AIComposer/MusicComposition.swift:136-165 | Scanning an exported part track in memory, in insertion order (see Left out), gives back every note of the part in measure order, each at its own time with pitch raised by its measure's key offset and other fields unchanged, converted at the given resolution, then the pad note; the count is the part's note count plus one. |
| `RoundTrip.ExportedPartMarkers` | AIComposer/MusicComposition.swift:142-147 | Scanning an exported part track in memory gives no time signature, and a marker at time 0 exactly when the part's sound preset is 20 (the program change's `data1`). |
| `RoundTrip.StoredOrderImport` | AIComposer/MIDIFileParser.swift:141-156 | Scanning an exported part track in memory, in any reordering of its events, in particular the engine's time-sorted order, gives back the same multiset of note records (the note body's records plus the pad's), as many records as the part has notes plus one, the same markers and no time signature. |
| `Seqs.FilterMapPermutation` | AIComposer/MIDIFileParser.swift:141-156 | An event scan applied to two orderings of the same events yields the same multiset of results. |

## Left out

- Loading and writing MIDI files (`MusicSequenceFileLoad`, `MusicSequenceFileCreate`), creating sequences and tracks, iterators, `CAShow`: engine I/O whose internals are not visible; a loaded sequence is given as data and an exported one is returned as data.
- `MusicSequenceBeatsToBarBeatTime`: an uninterpreted function value; its bar/beat arithmetic belongs to the engine.
- `determineTimeResolutionOfSequence`: reading the track property becomes the `timeResolution` field of the loaded sequence.
- RoundTrip.ExportedPartNotes: scans the in-memory export and assumes that writing it with `MusicSequenceFileCreate` and loading it back with `MusicSequenceFileLoad(..., SMF_ChannelsToTracks)` returns the same events up to order. The file-level effects are not modelled: the reload spreads a part's events over one track per MIDI channel, stores times and durations as SMF ticks, and may read the zero-velocity pad note as a note-off.
- RoundTrip.ExportedPartMarkers: the same in-memory assumption as `RoundTrip.ExportedPartNotes`.
- RoundTrip.StoredOrderImport: the same in-memory assumption as `RoundTrip.ExportedPartNotes`; it covers any reordering of a part's events, not their redistribution over channel tracks.
- Composition.ExchangeMusicPart: treats `MusicPart(musicPart:)`, the copy taken of the incoming and of the displaced part, as the identity, because that initializer is not part of this model; `Composition.ExchangeMusicPartRestores` relies on this. Its `requires 0 <= partNum < |c.musicParts|` stands for the array-index trap of `musicParts[partNum]`.
- MidiFileParser.MidiFilePath: code-point substring test; Foundation's canonical-equivalence matching in `rangeOfString` is not modelled.
- The engine's time-ordered storage of inserted events: tracks are modelled in insertion order, so the order-sensitive import lemmas (`RoundTrip.ExportedPartNotes`) describe an insertion-ordered read. The engine's sort itself is not modelled; `RoundTrip.StoredOrderImport` covers every reordering, so it covers the sorted one too, but only up to order.
- `print` diagnostics: output side effects only.
- Meta event payload bytes after the first, and `dataLength`: the parser never reads them.
- Floating point: `MusicTimeStamp`, tempos and note durations are exact reals, so rounding of `Double`/`Float32` is not modelled.
- The 32-bit track counter of the import loop: track indices are unbounded naturals.
- `init(coder:)` and `encodeWithCoder`: archival through a foreign coder.
- `init()` (MusicComposition.swift:32-38): it only sets defaults (no parts, name "New Composition", `tempo` 0, `numberOfMeasures` 0) and builds nothing; the model starts from `Composition.NewComposition` instead.
- The copy initializer `init(composition:)` (MusicComposition.swift:41-53): field-by-field copying of bookkeeping and fitness values (the copy omits `noteFitness`).
- `exchangeMeasure`: the replacement goes through `MusicPart.setMeasure`, whose source is not part of this model.
- `finishComposition` (MusicComposition.swift:188-194): it only calls `MusicMeasure.humanizeNotes` on every measure of every part; the source of that method is not part of this model, and humanizing is likely randomised.
- `dataString` and the fitness fields: string formatting for the user interface.
- The `MusicMeasure`, `MusicPart`, `MusicNote` and `Chord` classes are reduced to the fields the export and exchange read. `MusicPart` keeps only its measures and sound preset; its note range and fitness values are dropped.

=== FILE: composition.dfy ===
/** Export side: a composition (parts, each a list of measures, each a list
    of notes) is flattened into one tempo track and one event track per
    part. Also the part exchange and the chord-progression summary string.

    An output track is the sequence of events in the order the builder
    inserts them. */
module Composition {
  import opened Seqs
  import opened MidiEvents

  /** Controller-change status byte on channel 0 (used for bank select). */
  const ControlChangeStatus: UInt8 := 0xB0
  /** Program-change status byte on channel 0; the builder adds the part
      index to it. */
  const ProgramChangeStatus: UInt8 := 0xC0
  const BankSelectMsb: UInt8 := 0
  const BankSelectLsb: UInt8 := 32
  /** `0xC0 + partIndex` must fit in a byte, which allows 64 parts. */
  const MaxParts := 0x100 - ProgramChangeStatus
  /** Beats of silence kept after the last measure. */
  const TrailingBeats: real := 3.0
  /** The silent note that pads the end of every part track. */
  const PadNote := NoteMessage(0, 0, 0, 0, 2.0)
  const ChordSeparator := " \U{279D} "
  const ChordEnd := "END"

  datatype TimeSignature = TimeSignature(numberOfBeats: int)

  datatype Chord = Chord(name: string)

  /** A note of a measure; `timeStamp` is absolute within the sequence and
      the pitch is not yet transposed by the measure's key. */
  datatype MusicNote = MusicNote(midiNoteMess: NoteMessage, timeStamp: real)

  datatype MusicMeasure = MusicMeasure(
    tempo: real,
    firstBeatTimeStamp: real,
    keySig: int,
    timeSignature: TimeSignature,
    chord: Chord,
    notes: seq<MusicNote>)

  datatype MusicPart = MusicPart(measures: seq<MusicMeasure>, soundPreset: UInt8)

  datatype TempoEvent = TempoEvent(timeStamp: real, bpm: real)

  datatype ExportedSequence = ExportedSequence(tempoTrack: seq<TempoEvent>, tracks: seq<seq<Event>>)

  /** The composition's state. `tempo` and `numberOfParts` are `None` until a
      sequence has been built; `musicSequence` is `None` while no sequence
      exists. */
  datatype MusicComposition = MusicComposition(
    name: string,
    musicParts: seq<MusicPart>,
    musicSequence: Option<ExportedSequence>,
    tempo: Option<int>,
    numberOfMeasures: int,
    numberOfParts: Option<int>,
    chordProgressionString: string)

  // ---------------------------------------------------------------------
  // Preconditions of the builder: the byte conversions must not trap and
  // every part needs a last measure.

  predicate Transposable(n: MusicNote, keySig: int) {
    0 <= n.midiNoteMess.note + keySig < 0x100
  }

  predicate MeasureExportable(m: MusicMeasure) {
    forall j :: 0 <= j < |m.notes| ==> Transposable(m.notes[j], m.keySig)
  }

  predicate MeasuresExportable(ms: seq<MusicMeasure>) {
    forall i :: 0 <= i < |ms| ==> MeasureExportable(ms[i])
  }

  predicate PartExportable(p: MusicPart) {
    |p.measures| > 0 && MeasuresExportable(p.measures)
  }

  predicate PartsExportable(parts: seq<MusicPart>) {
    |parts| <= MaxParts && forall i :: 0 <= i < |parts| ==> PartExportable(parts[i])
  }

  // ---------------------------------------------------------------------
  // Part tracks

  /** Total number of notes over a run of measures. */
  function TotalNotes(ms: seq<MusicMeasure>): nat
    decreases |ms|
  {
    if |ms| == 0 then 0 else TotalNotes(ms[..|ms| - 1]) + |ms[|ms| - 1].notes|
  }

  /** Position of measure `i`'s first note in the note body of `ms`. */
  function NoteOffset(ms: seq<MusicMeasure>, i: int): nat
    requires 0 <= i <= |ms|
  {
    TotalNotes(ms[..i])
  }

  /** The note as exported: pitch shifted by the measure's key offset, every
      other field copied, at the note's own time stamp. */
  function TransposedNoteEvent(n: MusicNote, keySig: int): Event
    requires Transposable(n, keySig)
  {
    NoteEvent(n.timeStamp, n.midiNoteMess.(note := n.midiNoteMess.note + keySig))
  }

  function MeasureNoteEvents(m: MusicMeasure): (r: seq<Event>)
    requires MeasureExportable(m)
    ensures |r| == |m.notes|
  {
    seq(|m.notes|, j requires 0 <= j < |m.notes| => TransposedNoteEvent(m.notes[j], m.keySig))
  }

  /** The note events of a run of measures, measure by measure. */
  function NoteEvents(ms: seq<MusicMeasure>): (r: seq<Event>)
    requires MeasuresExportable(ms)
    ensures |r| == TotalNotes(ms)
    decreases |ms|
  {
    if |ms| == 0 then []
    else NoteEvents(ms[..|ms| - 1]) + MeasureNoteEvents(ms[|ms| - 1])
  }

  /** The three time-0 set-up events: bank select MSB and LSB, then the
      program change whose status byte is offset by the part index. */
  function SetupEvents(partNumber: nat, soundPreset: UInt8): seq<Event>
    requires partNumber < MaxParts
  {
    [ ChannelEvent(0.0, ChannelMessage(ControlChangeStatus, BankSelectMsb, 0)),
      ChannelEvent(0.0, ChannelMessage(ControlChangeStatus, BankSelectLsb, 0)),
      ChannelEvent(0.0, ChannelMessage(ProgramChangeStatus + partNumber, soundPreset, 0)) ]
  }

  /** End of a measure, in beats. */
  function MeasureEnd(m: MusicMeasure): real {
    m.firstBeatTimeStamp + m.timeSignature.numberOfBeats as real
  }

  /** The silent pad note placed after the last measure. */
  function PadEvent(last: MusicMeasure): Event {
    NoteEvent(MeasureEnd(last) + TrailingBeats, PadNote)
  }

  /** The part index is added to the whole status byte, so from index 16 on
      it carries into the high nibble: parts 16-31 send channel pressure
      (0xD_), 32-47 pitch bend (0xE_) and 48-63 a system status (0xF_)
      instead of a program change. */
  lemma ProgramChangeStatusCarries(soundPreset: UInt8)
    ensures SetupEvents(15, soundPreset)[2].message.status == 0xCF
    ensures SetupEvents(16, soundPreset)[2].message.status == 0xD0
    ensures SetupEvents(32, soundPreset)[2].message.status == 0xE0
    ensures SetupEvents(63, soundPreset)[2].message.status == 0xFF
  {
  }

  /** The event track of one part. */
  function AddPartToSequence(part: MusicPart, partNumber: nat): (track: seq<Event>)
    requires partNumber < MaxParts
    requires PartExportable(part)
    ensures |track| == 3 + TotalNotes(part.measures) + 1
  {
    SetupEvents(partNumber, part.soundPreset)
      + NoteEvents(part.measures)
      + [PadEvent(part.measures[|part.measures| - 1])]
  }

  // ---------------------------------------------------------------------
  // Tempo track

  /** The tempo loop as written: walking the measures, emit an event at a
      measure's first beat when its tempo differs from the last tempo
      emitted. */
  function TempoEventsSince(ms: seq<MusicMeasure>, previousTempo: real): seq<TempoEvent>
    decreases |ms|
  {
    if |ms| == 0 then []
    else if ms[0].tempo != previousTempo then
      [TempoEvent(ms[0].firstBeatTimeStamp, ms[0].tempo)] + TempoEventsSince(ms[1..], ms[0].tempo)
    else TempoEventsSince(ms[1..], previousTempo)
  }

  /** The tempo track: the first measure's tempo at time 0, then the
      run-length-compressed changes. */
  function TempoTrack(ms: seq<MusicMeasure>): (r: seq<TempoEvent>)
    requires |ms| > 0
    ensures |r| > 0 && r[0] == TempoEvent(0.0, ms[0].tempo)
  {
    [TempoEvent(0.0, ms[0].tempo)] + TempoEventsSince(ms, ms[0].tempo)
  }

  /** Independent description of the changes: measure `i > 0` carries one
      exactly when its tempo differs from that of measure `i - 1`. */
  function AdjacentTempoChanges(ms: seq<MusicMeasure>): seq<TempoEvent>
    decreases |ms|
  {
    if |ms| <= 1 then []
    else
      (if ms[1].tempo != ms[0].tempo then [TempoEvent(ms[1].firstBeatTimeStamp, ms[1].tempo)] else [])
        + AdjacentTempoChanges(ms[1..])
  }

  /** Number of measures whose tempo differs from the preceding measure's. */
  function TempoChangeCount(ms: seq<MusicMeasure>): nat
    decreases |ms|
  {
    if |ms| <= 1 then 0
    else (if ms[1].tempo != ms[0].tempo then 1 else 0) + TempoChangeCount(ms[1..])
  }

  // ---------------------------------------------------------------------
  // Whole composition

  /** Int(Double) on a finite value: truncation toward zero. */
  function TruncateToInt(x: real): (n: int)
    ensures 0.0 <= x ==> n as real <= x < n as real + 1.0
    ensures x < 0.0 ==> n as real - 1.0 < x <= n as real
  {
    if x >= 0.0 then x.Floor else -((-x).Floor)
  }

  /** The exported sequence of a non-empty list of parts: the tempo track of
      part 0, then one track per part tagged with its index. */
  function ExportSequence(parts: seq<MusicPart>): (s: ExportedSequence)
    requires 0 < |parts| && PartsExportable(parts)
    ensures |s.tracks| == |parts|
  {
    ExportedSequence(
      TempoTrack(parts[0].measures),
      seq(|parts|, i requires 0 <= i < |parts| && PartsExportable(parts) => AddPartToSequence(parts[i], i)))
  }

  /** Builds the composition's sequence; with no parts nothing changes. */
  function CreateMusicSequence(c: MusicComposition): (r: MusicComposition)
    requires PartsExportable(c.musicParts)
    ensures |c.musicParts| == 0 ==> r == c
    ensures r.musicParts == c.musicParts && r.name == c.name && r.numberOfMeasures == c.numberOfMeasures
    ensures r.chordProgressionString == c.chordProgressionString
    ensures |c.musicParts| > 0 ==>
      && r.musicSequence == Some(ExportSequence(c.musicParts))
      && r.numberOfParts == Some(|c.musicParts|)
      && r.tempo == Some(TruncateToInt(c.musicParts[0].measures[0].tempo))
  {
    if |c.musicParts| == 0 then c
    else
      c.(musicSequence := Some(ExportSequence(c.musicParts)),
         numberOfParts := Some(|c.musicParts|),
         tempo := Some(TruncateToInt(c.musicParts[0].measures[0].tempo)))
  }

  /** Chord names of a run of measures, each followed by the separator. */
  function ChordSegments(ms: seq<MusicMeasure>): string
    decreases |ms|
  {
    if |ms| == 0 then "" else ChordSegments(ms[..|ms| - 1]) + ms[|ms| - 1].chord.name + ChordSeparator
  }

  /** Appends part 0's chord progression and the end mark to the summary
      string; with no parts nothing changes. */
  function GenerateChordProgressionString(c: MusicComposition): (r: MusicComposition)
    ensures r == c.(chordProgressionString := r.chordProgressionString)
    ensures |c.musicParts| == 0 ==> r.chordProgressionString == c.chordProgressionString
    ensures |c.musicParts| > 0 ==>
      && |r.chordProgressionString| >= |c.chordProgressionString| + |ChordEnd|
      && r.chordProgressionString[..|c.chordProgressionString|] == c.chordProgressionString
      && r.chordProgressionString[|r.chordProgressionString| - |ChordEnd|..] == ChordEnd
    ensures |c.musicParts| > 0 ==>
      r.chordProgressionString == c.chordProgressionString + ChordSegments(c.musicParts[0].measures) + ChordEnd
  {
    if |c.musicParts| == 0 then c
    else c.(chordProgressionString := c.chordProgressionString + ChordSegments(c.musicParts[0].measures) + ChordEnd)
  }

  /** A new composition from its parts: the sequence is built, then the
      chord summary is generated from an empty string. */
  function NewComposition(name: string, musicParts: seq<MusicPart>, numberOfMeasures: int): (c: MusicComposition)
    requires PartsExportable(musicParts)
    ensures c.name == name && c.musicParts == musicParts && c.numberOfMeasures == numberOfMeasures
    ensures |musicParts| == 0 <==> c.musicSequence.None?
    ensures |musicParts| == 0 ==> c.tempo.None? && c.numberOfParts.None? && c.chordProgressionString == ""
    ensures |musicParts| > 0 ==>
      && c.musicSequence == Some(ExportSequence(musicParts))
      && c.numberOfParts == Some(|musicParts|)
      && c.tempo == Some(TruncateToInt(musicParts[0].measures[0].tempo))
      && c.chordProgressionString == ChordSegments(musicParts[0].measures) + ChordEnd
  {
    var initial := MusicComposition(name, musicParts, None, None, numberOfMeasures, None, "");
    GenerateChordProgressionString(CreateMusicSequence(initial))
  }

  /** Swaps in `newPart` at `partNum` and hands back the part it displaced;
      nothing else changes, not even the stored sequence. */
  function ExchangeMusicPart(c: MusicComposition, partNum: int, newPart: MusicPart): (r: (MusicComposition, MusicPart))
    requires 0 <= partNum < |c.musicParts|
    ensures r.1 == c.musicParts[partNum]
    ensures |r.0.musicParts| == |c.musicParts| && r.0.musicParts[partNum] == newPart
    ensures forall i :: 0 <= i < |c.musicParts| && i != partNum ==> r.0.musicParts[i] == c.musicParts[i]
    ensures r.0 == c.(musicParts := r.0.musicParts)
  {
    (c.(musicParts := c.musicParts[partNum := newPart]), c.musicParts[partNum])
  }

  // ---------------------------------------------------------------------
  // Properties of the part tracks

  /** Every event of the note body is a note event. */
  lemma {:induction false} NoteEventsAreNotes(ms: seq<MusicMeasure>)
    requires MeasuresExportable(ms)
    ensures forall k :: 0 <= k < |NoteEvents(ms)| ==> NoteEvents(ms)[k].NoteEvent?
    decreases |ms|
  {
    if |ms| > 0 {
      NoteEventsAreNotes(ms[..|ms| - 1]);
    }
  }

  lemma {:induction false} TotalNotesOfPrefix(ms: seq<MusicMeasure>, k: int)
    requires 0 <= k <= |ms|
    ensures TotalNotes(ms[..k]) <= TotalNotes(ms)
    decreases |ms|
  {
    if k < |ms| {
      assert ms[..|ms| - 1][..k] == ms[..k];
      TotalNotesOfPrefix(ms[..|ms| - 1], k);
    } else {
      assert ms[..k] == ms;
    }
  }

  /** Note `j` of measure `i` is exported at position `TotalNotes(ms[..i]) + j`
      of the note body: measure order first, then order within the measure. */
  lemma {:induction false} NoteEventAt(ms: seq<MusicMeasure>, i: int, j: int)
    requires MeasuresExportable(ms)
    requires 0 <= i < |ms| && 0 <= j < |ms[i].notes|
    ensures TotalNotes(ms[..i]) + j < TotalNotes(ms)
    ensures NoteEvents(ms)[TotalNotes(ms[..i]) + j] == TransposedNoteEvent(ms[i].notes[j], ms[i].keySig)
    decreases |ms|
  {
    var n := |ms| - 1;
    var ms' := ms[..n];
    if i == n {
      assert ms[..i] == ms';
    } else {
      assert ms'[..i] == ms[..i] && ms'[i] == ms[i];
      NoteEventAt(ms', i, j);
    }
  }

  /** `e` is note `n` exported from a measure with key offset `keySig`: a
      note event at the note's own time, pitch raised by the offset, every
      other field copied. */
  predicate ExportedAs(e: Event, n: MusicNote, keySig: int) {
    && e.NoteEvent?
    && e.timestamp == n.timeStamp
    && e.noteMessage.note == n.midiNoteMess.note + keySig
    && e.noteMessage.channel == n.midiNoteMess.channel
    && e.noteMessage.velocity == n.midiNoteMess.velocity
    && e.noteMessage.releaseVelocity == n.midiNoteMess.releaseVelocity
    && e.noteMessage.duration == n.midiNoteMess.duration
  }

  /** The notes of measure `m` appear in `track` from position `offset` on,
      in their order within the measure, each exported as `ExportedAs` says. */
  predicate MeasureExportedAt(track: seq<Event>, offset: nat, m: MusicMeasure) {
    && offset + |m.notes| <= |track|
    && forall j :: 0 <= j < |m.notes| ==> ExportedAs(track[offset + j], m.notes[j], m.keySig)
  }

  /** Layout of a part track: three time-0 set-up events in fixed order,
      then the notes measure by measure (measure `i` starting right after
      the notes of measures `0..i-1`), then the silent pad note three beats
      after the end of the last measure. */
  lemma PartTrackLayout(part: MusicPart, partNumber: nat)
    requires partNumber < MaxParts
    requires PartExportable(part)
    ensures var track, ms := AddPartToSequence(part, partNumber), part.measures;
      && |track| == 3 + TotalNotes(ms) + 1
      && track[0] == ChannelEvent(0.0, ChannelMessage(0xB0, 0, 0))
      && track[1] == ChannelEvent(0.0, ChannelMessage(0xB0, 32, 0))
      && track[2] == ChannelEvent(0.0, ChannelMessage(0xC0 + partNumber, part.soundPreset, 0))
      && track[|track| - 1] == NoteEvent(
           ms[|ms| - 1].firstBeatTimeStamp + ms[|ms| - 1].timeSignature.numberOfBeats as real + 3.0,
           NoteMessage(0, 0, 0, 0, 2.0))
      && forall i :: 0 <= i < |ms| ==> MeasureExportedAt(track[..|track| - 1], 3 + NoteOffset(ms, i), ms[i])
  {
    var ms := part.measures;
    var track := AddPartToSequence(part, partNumber);
    var body := track[..|track| - 1];
    forall i | 0 <= i < |ms|
      ensures MeasureExportedAt(body, 3 + NoteOffset(ms, i), ms[i])
    {
      assert ms[..i + 1][..i] == ms[..i];
      TotalNotesOfPrefix(ms, i + 1);
      forall j | 0 <= j < |ms[i].notes|
        ensures ExportedAs(body[3 + NoteOffset(ms, i) + j], ms[i].notes[j], ms[i].keySig)
      {
        NoteEventAt(ms, i, j);
        assert body[3 + TotalNotes(ms[..i]) + j] == NoteEvents(ms)[TotalNotes(ms[..i]) + j];
      }
    }
  }

  /** A part's measures lie back to back in time, each of non-negative
      length, and every note lies inside its own measure. */
  predicate WellTimed(ms: seq<MusicMeasure>) {
    && (forall i :: 0 <= i < |ms| ==> ms[i].timeSignature.numberOfBeats >= 0)
    && (forall i :: 0 <= i < |ms| - 1 ==> ms[i + 1].firstBeatTimeStamp == MeasureEnd(ms[i]))
    && (forall i, j :: 0 <= i < |ms| && 0 <= j < |ms[i].notes| ==>
          ms[i].firstBeatTimeStamp <= ms[i].notes[j].timeStamp < MeasureEnd(ms[i]))
  }

  lemma {:induction false} MeasureEndsGrow(ms: seq<MusicMeasure>, i: int)
    requires WellTimed(ms)
    requires 0 <= i < |ms|
    ensures MeasureEnd(ms[i]) <= MeasureEnd(ms[|ms| - 1])
    decreases |ms| - i
  {
    if i < |ms| - 1 {
      MeasureEndsGrow(ms, i + 1);
    }
  }

  /** In a well-timed part the pad note comes more than three beats after
      every note of the part. */
  lemma PadFollowsContent(part: MusicPart, i: int, j: int)
    requires |part.measures| > 0 && WellTimed(part.measures)
    requires 0 <= i < |part.measures| && 0 <= j < |part.measures[i].notes|
    ensures part.measures[i].notes[j].timeStamp + TrailingBeats
          < PadEvent(part.measures[|part.measures| - 1]).timestamp
  {
    MeasureEndsGrow(part.measures, i);
  }

  // ---------------------------------------------------------------------
  // Properties of the tempo track

  /** Comparing each measure with the last tempo emitted (as the builder
      does) gives the same events as comparing it with the previous
      measure. */
  lemma {:induction false} TempoEventsMatchAdjacent(ms: seq<MusicMeasure>)
    requires |ms| > 0
    ensures TempoEventsSince(ms, ms[0].tempo) == AdjacentTempoChanges(ms)
    decreases |ms|
  {
    assert TempoEventsSince(ms, ms[0].tempo) == TempoEventsSince(ms[1..], ms[0].tempo);
    if |ms| > 1 {
      var rest := ms[1..];
      TempoEventsMatchAdjacent(rest);
      assert TempoEventsSince(rest, rest[0].tempo) == TempoEventsSince(rest[1..], rest[0].tempo);
      assert rest[1..] == ms[2..];
    }
  }

  lemma {:induction false} AdjacentTempoChangesCount(ms: seq<MusicMeasure>)
    ensures |AdjacentTempoChanges(ms)| == TempoChangeCount(ms)
    decreases |ms|
  {
    if |ms| > 1 {
      AdjacentTempoChangesCount(ms[1..]);
    }
  }

  /** Emitted tempos alternate: the first differs from the starting tempo,
      neighbours differ, and the last emitted tempo (or the starting one, if
      none was emitted) is the tempo of the last measure. */
  lemma {:induction false} TempoEventsSinceShape(ms: seq<MusicMeasure>, previousTempo: real)
    ensures var r := TempoEventsSince(ms, previousTempo);
      && (|r| > 0 ==> r[0].bpm != previousTempo)
      && (forall k :: 0 <= k < |r| - 1 ==> r[k].bpm != r[k + 1].bpm)
      && (if |r| == 0 then previousTempo else r[|r| - 1].bpm)
         == (if |ms| == 0 then previousTempo else ms[|ms| - 1].tempo)
    decreases |ms|
  {
    if |ms| > 0 {
      var rest := ms[1..];
      if ms[0].tempo != previousTempo {
        TempoEventsSinceShape(rest, ms[0].tempo);
      } else {
        TempoEventsSinceShape(rest, previousTempo);
      }
      if |rest| > 0 {
        assert rest[|rest| - 1] == ms[|ms| - 1];
      }
    }
  }

  /** The tempo track starts with the first measure's tempo at time 0, holds
      one more event per tempo change between neighbouring measures (at the
      changing measure's first beat), never repeats a tempo between
      neighbouring events, and ends on the last measure's tempo. */
  lemma TempoTrackShape(ms: seq<MusicMeasure>)
    requires |ms| > 0
    ensures var r := TempoTrack(ms);
      && r == [TempoEvent(0.0, ms[0].tempo)] + AdjacentTempoChanges(ms)
      && |r| == 1 + TempoChangeCount(ms)
      && (forall k :: 0 <= k < |r| - 1 ==> r[k].bpm != r[k + 1].bpm)
      && r[|r| - 1].bpm == ms[|ms| - 1].tempo
  {
    TempoEventsMatchAdjacent(ms);
    AdjacentTempoChangesCount(ms);
    TempoEventsSinceShape(ms, ms[0].tempo);
  }

  /** With one tempo throughout, the tempo track is a single event. */
  lemma {:induction false} ConstantTempoSingleEvent(ms: seq<MusicMeasure>)
    requires |ms| > 0
    requires forall i :: 0 <= i < |ms| ==> ms[i].tempo == ms[0].tempo
    ensures TempoTrack(ms) == [TempoEvent(0.0, ms[0].tempo)]
  {
    var k := |ms|;
    while k > 0
      invariant 0 <= k <= |ms|
      invariant TempoEventsSince(ms[k..], ms[0].tempo) == []
    {
      k := k - 1;
      assert ms[k..][1..] == ms[k + 1..];
    }
    assert ms[0..] == ms;
  }

  /** Six four-beat measures at tempos 120, 120, 120, 90, 90, 120 give
      three tempo events, at beats 0, 12 and 20. */
  lemma TempoCompressionExample(ms: seq<MusicMeasure>)
    requires |ms| == 6
    requires forall i :: 0 <= i < 6 ==> ms[i].firstBeatTimeStamp == 4.0 * i as real
    requires ms[0].tempo == ms[1].tempo == ms[2].tempo == ms[5].tempo == 120.0
    requires ms[3].tempo == ms[4].tempo == 90.0
    ensures TempoTrack(ms) == [TempoEvent(0.0, 120.0), TempoEvent(12.0, 90.0), TempoEvent(20.0, 120.0)]
  {
    assert ms[5..][1..] == [];
    assert TempoEventsSince(ms[5..], 90.0) == [TempoEvent(20.0, 120.0)];
    assert ms[4..][1..] == ms[5..];
    assert ms[3..][1..] == ms[4..];
    assert TempoEventsSince(ms[3..], 120.0) == [TempoEvent(12.0, 90.0), TempoEvent(20.0, 120.0)];
    assert ms[2..][1..] == ms[3..];
    assert TempoEventsSince(ms[2..], 120.0) == TempoEventsSince(ms[3..], 120.0);
    assert ms[1..][1..] == ms[2..];
    assert TempoEventsSince(ms[1..], 120.0) == TempoEventsSince(ms[2..], 120.0);
    assert TempoEventsSince(ms, 120.0) == TempoEventsSince(ms[1..], 120.0);
  }

  /** Only part 0 decides the tempo track. */
  lemma ExportLayout(parts: seq<MusicPart>)
    requires 0 < |parts| && PartsExportable(parts)
    ensures var s := ExportSequence(parts);
      && s.tempoTrack == TempoTrack(parts[0].measures)
      && forall i :: 0 <= i < |parts| ==>
           && s.tracks[i] == AddPartToSequence(parts[i], i)
           && |s.tracks[i]| == 3 + TotalNotes(parts[i].measures) + 1
           && s.tracks[i][2] == ChannelEvent(0.0, ChannelMessage(ProgramChangeStatus + i, parts[i].soundPreset, 0))
  {
  }

  // ---------------------------------------------------------------------
  // Chord summary and part exchange

  lemma {:induction false} ChordSegmentsAppend(a: seq<MusicMeasure>, b: seq<MusicMeasure>)
    ensures ChordSegments(a + b) == ChordSegments(a) + ChordSegments(b)
    decreases |b|
  {
    if |b| == 0 {
      assert a + b == a;
    } else {
      var b' := b[..|b| - 1];
      ChordSegmentsAppend(a, b');
      assert (a + b)[..|a + b| - 1] == a + b';
    }
  }

  /** Measure `i`'s chord name and separator sit right after the segments of
      measures `0..i-1`: one segment per measure, in measure order. */
  lemma ChordSegmentAt(ms: seq<MusicMeasure>, i: int)
    requires 0 <= i < |ms|
    ensures var all, o, seg := ChordSegments(ms), |ChordSegments(ms[..i])|, ms[i].chord.name + ChordSeparator;
      o + |seg| <= |all| && all[o..o + |seg|] == seg
  {
    assert ms[..i + 1][..i] == ms[..i];
    assert ms == ms[..i + 1] + ms[i + 1..];
    ChordSegmentsAppend(ms[..i + 1], ms[i + 1..]);
  }

  /** Exchanging the displaced part back in restores the composition. */
  lemma ExchangeMusicPartRestores(c: MusicComposition, partNum: int, newPart: MusicPart)
    requires 0 <= partNum < |c.musicParts|
    ensures var (c', displaced) := ExchangeMusicPart(c, partNum, newPart);
      ExchangeMusicPart(c', partNum, displaced) == (c, newPart)
  {
    var parts := c.musicParts;
    assert parts[partNum := newPart][partNum := parts[partNum]] == parts;
  }
}

=== FILE: midi_events.dfy ===
/** The engine's event records, as a tagged union decoded once, instead of a
    raw payload reinterpreted by event type. The byte and 32-bit fields of
    note, channel and meta messages are integer subset types, so a message
    with an out-of-range field cannot be built; the fields of `BarBeatTime`
    are plain integers, produced by the engine and never inspected here. */
module MidiEvents {

  type UInt8 = x: int | 0 <= x < 0x100
  type UInt32 = x: int | 0 <= x < 0x1_0000_0000

  /** Meta event type of a time signature. */
  const TimeSignatureMetaType: UInt8 := 0x58

  /** `data1` value of a channel message that the application uses as a
      user marker. */
  const MarkerTrigger: UInt8 := 20

  /** A note with its length; `duration` is in beats. */
  datatype NoteMessage = NoteMessage(
    channel: UInt8,
    note: UInt8,
    velocity: UInt8,
    releaseVelocity: UInt8,
    duration: real)

  datatype ChannelMessage = ChannelMessage(status: UInt8, data1: UInt8, data2: UInt8)

  /** A meta event header; `data` is the first payload byte, the only one
      the parser reads, whatever `dataLength` says. */
  datatype MetaMessage = MetaMessage(metaEventType: UInt8, dataLength: UInt32, data: UInt8)

  /** One event of a track, with its time stamp in beats. `OtherEvent`
      stands for every event kind the translator does not interpret
      (tempo, user, sysex, ...), carrying only the engine's type code. */
  datatype Event =
    | NoteEvent(timestamp: real, noteMessage: NoteMessage)
    | MetaEvent(timestamp: real, meta: MetaMessage)
    | ChannelEvent(timestamp: real, message: ChannelMessage)
    | OtherEvent(timestamp: real, eventType: UInt32)

  /** The engine's bar/beat decomposition of a time stamp. */
  datatype BarBeatTime = BarBeatTime(bar: int, beat: int, subbeat: int, subbeatDivisor: int)
}

=== FILE: midi_file_parser.dfy ===
/** Import side: turns a loaded sequence's event streams into the flat lists
    the composer works from (timed notes, time signatures, markers) plus the
    sequence's time resolution, and fixes the suffix of an output path.

    The engine is replaced by in-memory data: a loaded sequence is its tempo
    track and note tracks as event sequences, its time-resolution property,
    and its bar/beat conversion as an uninterpreted function value. */
module MidiFileParser {
  import opened Seqs
  import opened MidiEvents

  /** The engine's conversion of a time stamp to bar/beat form, given the
      time resolution; its arithmetic belongs to the engine. */
  type BarBeatConversion = (real, UInt32) -> BarBeatTime

  datatype MusicSequence = MusicSequence(
    tempoTrack: seq<Event>,
    tracks: seq<seq<Event>>,
    timeResolution: UInt32,
    beatsToBarBeatTime: BarBeatConversion)

  /** One time-signature entry; both fields come from one byte (see
      `TimeSigEntryOf`). */
  datatype TimeSigEntry = TimeSigEntry(numbeats: UInt8, lengthOfBeat: UInt8, timeStamp: real)

  datatype TimedNote = TimedNote(midiNoteMessage: NoteMessage, barBeatTime: BarBeatTime, timeStamp: real)

  datatype TempoTrackData = TempoTrackData(
    musicTrack: seq<Event>,
    timeRes: UInt32,
    timeSigEvents: seq<TimeSigEntry>)

  datatype TrackEvents = TrackEvents(midiEvents: seq<TimedNote>, eventMarkers: seq<real>)

  datatype LoadedMidiFile = LoadedMidiFile(
    tempoTrack: seq<Event>,
    midiNotes: seq<TimedNote>,
    timeResolution: UInt32,
    timeSigEvents: seq<TimeSigEntry>,
    eventMarkers: seq<real>)

  predicate IsTimeSignature(e: Event) {
    e.MetaEvent? && e.meta.metaEventType == TimeSignatureMetaType
  }

  predicate IsMarker(e: Event) {
    e.ChannelEvent? && e.message.data1 == MarkerTrigger
  }

  predicate IsNote(e: Event) {
    e.NoteEvent?
  }

  /** What one tempo-track event contributes to the time-signature list. The
      parser stores the first payload byte as both the beat count and the
      beat length. */
  function TimeSigEntryOf(e: Event): Option<TimeSigEntry> {
    if IsTimeSignature(e) then Some(TimeSigEntry(e.meta.data, e.meta.data, e.timestamp)) else None
  }

  /** What one track event contributes to the note list. */
  function NoteRecordOf(toBarBeat: BarBeatConversion, timeResolution: UInt32): Event -> Option<TimedNote> {
    e => if IsNote(e) then Some(TimedNote(e.noteMessage, toBarBeat(e.timestamp, timeResolution), e.timestamp)) else None
  }

  /** Applying `NoteRecordOf` to one event. */
  lemma NoteRecordOfApplied(toBarBeat: BarBeatConversion, timeResolution: UInt32, e: Event)
    ensures NoteRecordOf(toBarBeat, timeResolution)(e)
         == if IsNote(e) then Some(TimedNote(e.noteMessage, toBarBeat(e.timestamp, timeResolution), e.timestamp)) else None
  {
  }

  /** What one track event contributes to the marker list. */
  function MarkerOf(e: Event): Option<real> {
    if IsMarker(e) then Some(e.timestamp) else None
  }

  /** Scan of the tempo track: collects the time-signature meta events and
      reports the sequence's time resolution. */
  method ParseTempoTrack(sequence: MusicSequence) returns (r: TempoTrackData)
    ensures r.musicTrack == sequence.tempoTrack
    ensures r.timeRes == sequence.timeResolution
    ensures r.timeSigEvents == FilterMap(sequence.tempoTrack, TimeSigEntryOf)
    ensures forall k :: 0 <= k < |r.timeSigEvents| ==> r.timeSigEvents[k].numbeats == r.timeSigEvents[k].lengthOfBeat
  {
    var track := sequence.tempoTrack;
    var timeSigEvents: seq<TimeSigEntry> := [];
    var i := 0;
    while i < |track|
      invariant 0 <= i <= |track|
      invariant timeSigEvents == FilterMap(track[..i], TimeSigEntryOf)
      invariant forall k :: 0 <= k < |timeSigEvents| ==> timeSigEvents[k].numbeats == timeSigEvents[k].lengthOfBeat
    {
      var e := track[i];
      if e.MetaEvent? {
        var beatLength := e.meta.data;
        if e.meta.metaEventType == 0x58 {
          timeSigEvents := timeSigEvents + [TimeSigEntry(e.meta.data, beatLength, e.timestamp)];
        }
      }
      assert track[..i + 1][..i] == track[..i];
      i := i + 1;
    }
    assert track[..i] == track;
    r := TempoTrackData(track, sequence.timeResolution, timeSigEvents);
  }

  /** Scan of one note track: a record per note event, converted to bar/beat
      form with the given resolution, and a marker time stamp per channel
      message whose `data1` is the marker trigger. Nothing else counts. */
  method ParseTrackForMidiEvents(track: seq<Event>, sequence: MusicSequence, timeResolution: UInt32)
    returns (r: TrackEvents)
    ensures r.midiEvents == FilterMap(track, NoteRecordOf(sequence.beatsToBarBeatTime, timeResolution))
    ensures r.eventMarkers == FilterMap(track, MarkerOf)
    ensures forall k :: 0 <= k < |r.midiEvents| ==>
      r.midiEvents[k].barBeatTime == sequence.beatsToBarBeatTime(r.midiEvents[k].timeStamp, timeResolution)
  {
    var f := NoteRecordOf(sequence.beatsToBarBeatTime, timeResolution);
    var notesForTrack: seq<TimedNote> := [];
    var eventMarkers: seq<real> := [];
    var i := 0;
    while i < |track|
      invariant 0 <= i <= |track|
      invariant notesForTrack == FilterMap(track[..i], f)
      invariant eventMarkers == FilterMap(track[..i], MarkerOf)
      invariant forall k :: 0 <= k < |notesForTrack| ==>
        notesForTrack[k].barBeatTime == sequence.beatsToBarBeatTime(notesForTrack[k].timeStamp, timeResolution)
    {
      var e := track[i];
      NoteRecordOfApplied(sequence.beatsToBarBeatTime, timeResolution, e);
      match e {
        case NoteEvent(timestamp, noteMessage) =>
          var barBeatTime := sequence.beatsToBarBeatTime(timestamp, timeResolution);
          notesForTrack := notesForTrack + [TimedNote(noteMessage, barBeatTime, timestamp)];
        case ChannelEvent(timestamp, channelMessage) =>
          if channelMessage.data1 == 20 {
            eventMarkers := eventMarkers + [timestamp];
          }
        case _ =>
      }
      assert track[..i + 1][..i] == track[..i];
      i := i + 1;
    }
    assert track[..i] == track;
    r := TrackEvents(notesForTrack, eventMarkers);
  }

  /** Scan of every note track in index order, concatenating the per-track
      notes and, separately, the per-track markers; nothing is re-sorted. */
  method ParseMidiEventTracks(sequence: MusicSequence, timeResolution: UInt32) returns (r: TrackEvents)
    ensures r.midiEvents == FilterMapEach(sequence.tracks, NoteRecordOf(sequence.beatsToBarBeatTime, timeResolution))
    ensures r.eventMarkers == FilterMapEach(sequence.tracks, MarkerOf)
    ensures r.midiEvents == FilterMap(Flatten(sequence.tracks), NoteRecordOf(sequence.beatsToBarBeatTime, timeResolution))
    ensures r.eventMarkers == FilterMap(Flatten(sequence.tracks), MarkerOf)
    ensures forall k :: 0 <= k < |r.midiEvents| ==>
      r.midiEvents[k].barBeatTime == sequence.beatsToBarBeatTime(r.midiEvents[k].timeStamp, timeResolution)
  {
    var f := NoteRecordOf(sequence.beatsToBarBeatTime, timeResolution);
    var tracks := sequence.tracks;
    var notes: seq<TimedNote> := [];
    var eventMarkers: seq<real> := [];
    var index := 0;
    while index < |tracks|
      invariant 0 <= index <= |tracks|
      invariant notes == FilterMapEach(tracks[..index], f)
      invariant eventMarkers == FilterMapEach(tracks[..index], MarkerOf)
      invariant forall k :: 0 <= k < |notes| ==>
        notes[k].barBeatTime == sequence.beatsToBarBeatTime(notes[k].timeStamp, timeResolution)
    {
      var parsed := ParseTrackForMidiEvents(tracks[index], sequence, timeResolution);
      eventMarkers := eventMarkers + parsed.eventMarkers;
      notes := notes + parsed.midiEvents;
      assert tracks[..index + 1][..index] == tracks[..index];
      index := index + 1;
    }
    assert tracks[..index] == tracks;
    FilterMapEachFlatten(tracks, f);
    FilterMapEachFlatten(tracks, MarkerOf);
    r := TrackEvents(notes, eventMarkers);
  }

  /** The whole import: one time resolution, read from the tempo track, is
      used for every bar/beat conversion and is the one returned. */
  method LoadMidiFile(sequence: MusicSequence) returns (r: LoadedMidiFile)
    ensures r.tempoTrack == sequence.tempoTrack
    ensures r.timeResolution == sequence.timeResolution
    ensures r.midiNotes == FilterMap(Flatten(sequence.tracks), NoteRecordOf(sequence.beatsToBarBeatTime, r.timeResolution))
    ensures forall k :: 0 <= k < |r.midiNotes| ==>
      r.midiNotes[k].barBeatTime == sequence.beatsToBarBeatTime(r.midiNotes[k].timeStamp, r.timeResolution)
    ensures r.timeSigEvents == FilterMap(sequence.tempoTrack, TimeSigEntryOf)
    ensures r.eventMarkers == FilterMap(Flatten(sequence.tracks), MarkerOf)
  {
    var timeResolution := sequence.timeResolution;
    var midiNoteEvents := ParseMidiEventTracks(sequence, timeResolution);
    var tempoTrackData := ParseTempoTrack(sequence);
    r := LoadedMidiFile(tempoTrackData.musicTrack, midiNoteEvents.midiEvents, tempoTrackData.timeRes,
                        tempoTrackData.timeSigEvents, midiNoteEvents.eventMarkers);
  }

  const MidSuffix := ".mid"

  /** The output path used when writing a sequence: `.mid` is appended
      unless the path already contains it anywhere. */
  function MidiFilePath(path: string): (r: string)
    ensures Contains(r, MidSuffix)
    ensures Contains(path, MidSuffix) ==> r == path
    ensures !Contains(path, MidSuffix) ==> r == path + MidSuffix
  {
    if Contains(path, MidSuffix) then path
    else
      ContainsAppended(path, MidSuffix);
      path + MidSuffix
  }

  /** Applying the suffix rule twice is applying it once. */
  lemma MidiFilePathIdempotent(path: string)
    ensures MidiFilePath(MidiFilePath(path)) == MidiFilePath(path)
  {
  }

  /** The time-signature list holds exactly the tempo-track meta events of
      type 0x58, in encounter order, each with its own time stamp and with
      its beat count equal to its beat length; other events give nothing. */
  lemma {:induction false} TimeSignaturesExact(track: seq<Event>)
    ensures var sigs, at := FilterMap(track, TimeSigEntryOf), Hits(track, TimeSigEntryOf);
      && |at| == |sigs|
      && (forall k :: 0 <= k < |at| ==>
            && IsTimeSignature(track[at[k]])
            && sigs[k] == TimeSigEntry(track[at[k]].meta.data, track[at[k]].meta.data, track[at[k]].timestamp))
      && (forall k, l :: 0 <= k < l < |at| ==> at[k] < at[l])
      && (forall i :: 0 <= i < |track| && IsTimeSignature(track[i]) ==> i in at)
    ensures |FilterMap(track, TimeSigEntryOf)| == Count(track, IsTimeSignature)
  {
    FilterMapExact(track, TimeSigEntryOf);
    var sigs, at := FilterMap(track, TimeSigEntryOf), Hits(track, TimeSigEntryOf);
    forall i | 0 <= i < |track| && IsTimeSignature(track[i])
      ensures i in at
    {
      assert TimeSigEntryOf(track[i]).Some?;
    }
    FilterMapCount(track, TimeSigEntryOf, IsTimeSignature);
  }

  /** Each note event of a track yields exactly one record, in encounter
      order, carrying the note, its bar/beat position at the given
      resolution and its time stamp; the record count is the note-event
      count. */
  lemma {:induction false} NoteRecordsExact(track: seq<Event>, toBarBeat: BarBeatConversion, timeResolution: UInt32)
    ensures var f := NoteRecordOf(toBarBeat, timeResolution);
      var notes, at := FilterMap(track, f), Hits(track, f);
      && |at| == |notes|
      && (forall k :: 0 <= k < |at| ==>
            && IsNote(track[at[k]])
            && notes[k] == TimedNote(track[at[k]].noteMessage, toBarBeat(track[at[k]].timestamp, timeResolution), track[at[k]].timestamp))
      && (forall k, l :: 0 <= k < l < |at| ==> at[k] < at[l])
      && (forall i :: 0 <= i < |track| && IsNote(track[i]) ==> i in at)
    ensures |FilterMap(track, NoteRecordOf(toBarBeat, timeResolution))| == Count(track, IsNote)
  {
    var f := NoteRecordOf(toBarBeat, timeResolution);
    FilterMapExact(track, f);
    var at := Hits(track, f);
    forall i | 0 <= i < |track| && IsNote(track[i])
      ensures i in at
    {
      assert f(track[i]).Some?;
    }
    FilterMapCount(track, f, IsNote);
  }

  /** The marker list holds exactly the time stamps of the channel messages
      whose `data1` is the marker trigger, in encounter order. */
  lemma {:induction false} MarkersExact(track: seq<Event>)
    ensures var markers, at := FilterMap(track, MarkerOf), Hits(track, MarkerOf);
      && |at| == |markers|
      && (forall k :: 0 <= k < |at| ==> IsMarker(track[at[k]]) && markers[k] == track[at[k]].timestamp)
      && (forall k, l :: 0 <= k < l < |at| ==> at[k] < at[l])
      && (forall i :: 0 <= i < |track| && IsMarker(track[i]) ==> i in at)
    ensures |FilterMap(track, MarkerOf)| == Count(track, IsMarker)
  {
    FilterMapExact(track, MarkerOf);
    var at := Hits(track, MarkerOf);
    forall i | 0 <= i < |track| && IsMarker(track[i])
      ensures i in at
    {
      assert MarkerOf(track[i]).Some?;
    }
    FilterMapCount(track, MarkerOf, IsMarker);
  }

  /** Scanning one more channel message adds one marker at its time stamp
      exactly when its `data1` is 20, whatever its status and `data2`, and
      adds no note. */
  lemma {:induction false} ChannelMessageStep(track: seq<Event>, t: real, m: ChannelMessage, toBarBeat: BarBeatConversion,
                           timeResolution: UInt32)
    ensures FilterMap(track + [ChannelEvent(t, m)], MarkerOf)
         == FilterMap(track, MarkerOf) + (if m.data1 == 20 then [t] else [])
    ensures FilterMap(track + [ChannelEvent(t, m)], NoteRecordOf(toBarBeat, timeResolution))
         == FilterMap(track, NoteRecordOf(toBarBeat, timeResolution))
  {
    var e := ChannelEvent(t, m);
    assert (track + [e])[..|track|] == track;
    NoteRecordOfApplied(toBarBeat, timeResolution, e);
  }

  /** Scanning one more event of any other kind changes none of the lists. */
  lemma {:induction false} OtherEventStep(track: seq<Event>, t: real, eventType: UInt32, toBarBeat: BarBeatConversion,
                       timeResolution: UInt32)
    ensures FilterMap(track + [OtherEvent(t, eventType)], MarkerOf) == FilterMap(track, MarkerOf)
    ensures FilterMap(track + [OtherEvent(t, eventType)], NoteRecordOf(toBarBeat, timeResolution))
         == FilterMap(track, NoteRecordOf(toBarBeat, timeResolution))
    ensures FilterMap(track + [OtherEvent(t, eventType)], TimeSigEntryOf) == FilterMap(track, TimeSigEntryOf)
  {
    var e := OtherEvent(t, eventType);
    assert (track + [e])[..|track|] == track;
    NoteRecordOfApplied(toBarBeat, timeResolution, e);
  }
}

=== FILE: round_trip.dfy ===
/** What the import scan recovers from a part track the export builder
    produced, scanned in memory: writing the track to a standard MIDI file
    and loading it back are assumed to return the same events, up to
    order. */
module RoundTrip {
  import opened Seqs
  import opened MidiEvents
  import opened MidiFileParser
  import opened Composition

  /** The set-up events give no note. */
  lemma SetupGivesNoNotes(partNumber: nat, soundPreset: UInt8, toBarBeat: BarBeatConversion, timeResolution: UInt32)
    requires partNumber < MaxParts
    ensures FilterMap(SetupEvents(partNumber, soundPreset), NoteRecordOf(toBarBeat, timeResolution)) == []
  {
    var f := NoteRecordOf(toBarBeat, timeResolution);
    var setup := SetupEvents(partNumber, soundPreset);
    forall i | 0 <= i < |setup| ensures f(setup[i]).None? {
      NoteRecordOfApplied(toBarBeat, timeResolution, setup[i]);
    }
    FilterMapAllNone(setup, f);
  }

  /** The set-up events give no time signature, and a marker only through
      the program change, when the preset equals 20. */
  lemma SetupMarkers(partNumber: nat, soundPreset: UInt8)
    requires partNumber < MaxParts
    ensures FilterMap(SetupEvents(partNumber, soundPreset), TimeSigEntryOf) == []
    ensures FilterMap(SetupEvents(partNumber, soundPreset), MarkerOf)
         == if soundPreset == MarkerTrigger then [0.0] else []
  {
    var setup := SetupEvents(partNumber, soundPreset);
    FilterMapAllNone(setup, TimeSigEntryOf);
    assert setup == setup[..2] + [setup[2]];
    FilterMapAllNone(setup[..2], MarkerOf);
    FilterMapAppend(setup[..2], [setup[2]], MarkerOf);
    assert [setup[2]][..0] == [];
  }

  /** The note body gives one record per event, element-wise. */
  lemma BodyNotes(ms: seq<MusicMeasure>, toBarBeat: BarBeatConversion, timeResolution: UInt32)
    requires MeasuresExportable(ms)
    ensures var body := NoteEvents(ms);
      var notes := FilterMap(body, NoteRecordOf(toBarBeat, timeResolution));
      && |notes| == |body|
      && forall k :: 0 <= k < |body| ==>
           && body[k].NoteEvent?
           && notes[k] == TimedNote(body[k].noteMessage, toBarBeat(body[k].timestamp, timeResolution), body[k].timestamp)
  {
    var f := NoteRecordOf(toBarBeat, timeResolution);
    var body := NoteEvents(ms);
    NoteEventsAreNotes(ms);
    forall i | 0 <= i < |body|
      ensures f(body[i]) == Some(TimedNote(body[i].noteMessage, toBarBeat(body[i].timestamp, timeResolution), body[i].timestamp))
    {
      NoteRecordOfApplied(toBarBeat, timeResolution, body[i]);
    }
    FilterMapAllSome(body, f);
  }

  /** The note body gives no marker and no time signature. */
  lemma BodyMarkers(ms: seq<MusicMeasure>)
    requires MeasuresExportable(ms)
    ensures FilterMap(NoteEvents(ms), MarkerOf) == []
    ensures FilterMap(NoteEvents(ms), TimeSigEntryOf) == []
  {
    NoteEventsAreNotes(ms);
    FilterMapAllNone(NoteEvents(ms), MarkerOf);
    FilterMapAllNone(NoteEvents(ms), TimeSigEntryOf);
  }

  /** Record `rec` is note `n` of a measure with key offset `keySig` after
      export and re-import. */
  predicate Reimported(rec: TimedNote, n: MusicNote, keySig: int) {
    ExportedAs(NoteEvent(rec.timeStamp, rec.midiNoteMessage), n, keySig)
  }

  predicate MeasureReimportedAt(notes: seq<TimedNote>, offset: nat, m: MusicMeasure) {
    && offset + |m.notes| <= |notes|
    && forall j :: 0 <= j < |m.notes| ==> Reimported(notes[offset + j], m.notes[j], m.keySig)
  }

  /** Record `rec` is what the scan makes of note event `e`. */
  predicate RecordOfEvent(rec: TimedNote, e: Event) {
    e == NoteEvent(rec.timeStamp, rec.midiNoteMessage)
  }

  /** `notes` holds one record per event of `body`, position by position. */
  predicate RecordsOf(notes: seq<TimedNote>, body: seq<Event>) {
    && |notes| == |body|
    && forall k :: 0 <= k < |body| ==> RecordOfEvent(notes[k], body[k])
  }

  lemma BodyRecords(ms: seq<MusicMeasure>, toBarBeat: BarBeatConversion, timeResolution: UInt32)
    requires MeasuresExportable(ms)
    ensures RecordsOf(FilterMap(NoteEvents(ms), NoteRecordOf(toBarBeat, timeResolution)), NoteEvents(ms))
  {
    var body := NoteEvents(ms);
    var notes := FilterMap(body, NoteRecordOf(toBarBeat, timeResolution));
    BodyNotes(ms, toBarBeat, timeResolution);
    forall k | 0 <= k < |body| ensures RecordOfEvent(notes[k], body[k]) {
      assert NoteEvent(notes[k].timeStamp, notes[k].midiNoteMessage) == body[k];
    }
  }

  /** Records matching the note body give back note `j` of measure `i` at
      its position in measure order, transposed by its measure's key
      offset. */
  lemma {:induction false} RecordsReimportAt(notes: seq<TimedNote>, ms: seq<MusicMeasure>, i: int, j: int)
    requires MeasuresExportable(ms)
    requires RecordsOf(notes, NoteEvents(ms))
    requires 0 <= i < |ms| && 0 <= j < |ms[i].notes|
    ensures NoteOffset(ms, i) + j < |notes|
    ensures Reimported(notes[NoteOffset(ms, i) + j], ms[i].notes[j], ms[i].keySig)
  {
    NoteEventAt(ms, i, j);
    assert RecordOfEvent(notes[NoteOffset(ms, i) + j], NoteEvents(ms)[NoteOffset(ms, i) + j]);
  }

  /** Measure `i`'s notes fit inside records matching the note body. */
  lemma {:induction false} RecordsMeasureFits(notes: seq<TimedNote>, ms: seq<MusicMeasure>, i: int)
    requires MeasuresExportable(ms)
    requires RecordsOf(notes, NoteEvents(ms))
    requires 0 <= i < |ms|
    ensures NoteOffset(ms, i) + |ms[i].notes| <= |notes|
  {
    if 0 < |ms[i].notes| {
      RecordsReimportAt(notes, ms, i, |ms[i].notes| - 1);
    } else {
      TotalNotesOfPrefix(ms, i);
    }
  }

  /** Records matching the note body give back the notes of measure `i` at
      that measure's offset. */
  lemma {:induction false} RecordsMeasureReimport(notes: seq<TimedNote>, ms: seq<MusicMeasure>, i: int)
    requires MeasuresExportable(ms)
    requires RecordsOf(notes, NoteEvents(ms))
    requires 0 <= i < |ms|
    ensures MeasureReimportedAt(notes, NoteOffset(ms, i), ms[i])
  {
    RecordsMeasureFits(notes, ms, i);
    var offset, m := NoteOffset(ms, i), ms[i];
    forall j | 0 <= j < |m.notes|
      ensures Reimported(notes[offset + j], m.notes[j], m.keySig)
    {
      NoteEventAt(ms, i, j);
      assert RecordOfEvent(notes[offset + j], NoteEvents(ms)[offset + j]);
    }
  }

  /** Scanning the note body gives back every note, at its position in
      measure order, transposed by its measure's key offset. */
  lemma BodyReimport(ms: seq<MusicMeasure>, toBarBeat: BarBeatConversion, timeResolution: UInt32)
    requires MeasuresExportable(ms)
    ensures var notes := FilterMap(NoteEvents(ms), NoteRecordOf(toBarBeat, timeResolution));
      forall i :: 0 <= i < |ms| ==> MeasureReimportedAt(notes, NoteOffset(ms, i), ms[i])
  {
    var notes := FilterMap(NoteEvents(ms), NoteRecordOf(toBarBeat, timeResolution));
    BodyRecords(ms, toBarBeat, timeResolution);
    forall i | 0 <= i < |ms|
      ensures MeasureReimportedAt(notes, NoteOffset(ms, i), ms[i])
    {
      RecordsMeasureReimport(notes, ms, i);
    }
  }

  lemma MeasureReimportedExtends(notes: seq<TimedNote>, more: seq<TimedNote>, offset: nat, m: MusicMeasure)
    requires MeasureReimportedAt(notes, offset, m)
    ensures MeasureReimportedAt(notes + more, offset, m)
  {
    forall j | 0 <= j < |m.notes|
      ensures Reimported((notes + more)[offset + j], m.notes[j], m.keySig)
    {
      assert (notes + more)[offset + j] == notes[offset + j];
    }
  }

  /** Scanning an exported part track for notes is scanning its note body,
      then the pad note. */
  lemma ExportedPartSplit(part: MusicPart, partNumber: nat, toBarBeat: BarBeatConversion, timeResolution: UInt32)
    requires partNumber < MaxParts
    requires PartExportable(part)
    ensures var ms, f := part.measures, NoteRecordOf(toBarBeat, timeResolution);
      var padTime := MeasureEnd(ms[|ms| - 1]) + TrailingBeats;
      FilterMap(AddPartToSequence(part, partNumber), f)
        == FilterMap(NoteEvents(ms), f) + [TimedNote(PadNote, toBarBeat(padTime, timeResolution), padTime)]
  {
    var ms := part.measures;
    var f := NoteRecordOf(toBarBeat, timeResolution);
    var setup := SetupEvents(partNumber, part.soundPreset);
    var body := NoteEvents(ms);
    var pad := [PadEvent(ms[|ms| - 1])];
    assert AddPartToSequence(part, partNumber) == setup + body + pad;
    FilterMapAppend(setup + body, pad, f);
    FilterMapAppend(setup, body, f);
    SetupGivesNoNotes(partNumber, part.soundPreset, toBarBeat, timeResolution);
    NoteRecordOfApplied(toBarBeat, timeResolution, pad[0]);
    assert pad[..0] == [];
  }

  /** Scanning an exported part track for notes gives back every note of
      the part, measure by measure and in order within each measure, at its
      own time and with its pitch raised by its measure's key offset, every
      other field unchanged, each converted to bar/beat form at the given
      resolution; then the silent pad note. The set-up events give no
      notes. */
  lemma ExportedPartNotes(part: MusicPart, partNumber: nat, toBarBeat: BarBeatConversion, timeResolution: UInt32)
    requires partNumber < MaxParts
    requires PartExportable(part)
    ensures var ms := part.measures;
      var notes := FilterMap(AddPartToSequence(part, partNumber), NoteRecordOf(toBarBeat, timeResolution));
      && |notes| == TotalNotes(ms) + 1
      && (forall i :: 0 <= i < |ms| ==> MeasureReimportedAt(notes, NoteOffset(ms, i), ms[i]))
      && (forall k :: 0 <= k < |notes| ==> notes[k].barBeatTime == toBarBeat(notes[k].timeStamp, timeResolution))
      && notes[|notes| - 1].midiNoteMessage == PadNote
      && notes[|notes| - 1].timeStamp == MeasureEnd(ms[|ms| - 1]) + TrailingBeats
  {
    var ms := part.measures;
    var f := NoteRecordOf(toBarBeat, timeResolution);
    var bodyNotes := FilterMap(NoteEvents(ms), f);
    var notes := FilterMap(AddPartToSequence(part, partNumber), f);
    ExportedPartSplit(part, partNumber, toBarBeat, timeResolution);
    BodyNotes(ms, toBarBeat, timeResolution);
    BodyReimport(ms, toBarBeat, timeResolution);
    forall i | 0 <= i < |ms|
      ensures MeasureReimportedAt(notes, NoteOffset(ms, i), ms[i])
    {
      MeasureReimportedExtends(bodyNotes, notes[|bodyNotes|..], NoteOffset(ms, i), ms[i]);
      assert bodyNotes + notes[|bodyNotes|..] == notes;
    }
  }

  /** No time signature comes back from an exported part track, and the
      only marker is the program change at time 0 when the sound preset
      happens to equal the marker trigger value 20. */
  lemma ExportedPartMarkers(part: MusicPart, partNumber: nat)
    requires partNumber < MaxParts
    requires PartExportable(part)
    ensures FilterMap(AddPartToSequence(part, partNumber), MarkerOf)
         == if part.soundPreset == MarkerTrigger then [0.0] else []
    ensures FilterMap(AddPartToSequence(part, partNumber), TimeSigEntryOf) == []
  {
    var ms := part.measures;
    var setup := SetupEvents(partNumber, part.soundPreset);
    var body := NoteEvents(ms);
    var pad := [PadEvent(ms[|ms| - 1])];
    assert AddPartToSequence(part, partNumber) == setup + body + pad;
    FilterMapAppend(setup + body, pad, MarkerOf);
    FilterMapAppend(setup, body, MarkerOf);
    FilterMapAppend(setup + body, pad, TimeSigEntryOf);
    FilterMapAppend(setup, body, TimeSigEntryOf);
    SetupMarkers(partNumber, part.soundPreset);
    BodyMarkers(ms);
    assert pad[..0] == [];
  }

  /** The engine keeps a track's events sorted by time stamp, so a scan of
      the in-memory export reads it in some reordering of the order the
      builder inserted the events. Whatever that reordering, the scan gives
      back the same note records (the body's records and the pad's), the
      same markers and no time signature; only their order can differ. The
      file write and reload in between are not modelled. */
  lemma {:induction false} StoredOrderImport(part: MusicPart, partNumber: nat, stored: seq<Event>,
                                             toBarBeat: BarBeatConversion, timeResolution: UInt32)
    requires partNumber < MaxParts
    requires PartExportable(part)
    requires multiset(stored) == multiset(AddPartToSequence(part, partNumber))
    ensures var ms, f := part.measures, NoteRecordOf(toBarBeat, timeResolution);
      var padTime := MeasureEnd(ms[|ms| - 1]) + TrailingBeats;
      && multiset(FilterMap(stored, f))
         == multiset(FilterMap(NoteEvents(ms), f)) + multiset{TimedNote(PadNote, toBarBeat(padTime, timeResolution), padTime)}
      && |FilterMap(stored, f)| == TotalNotes(ms) + 1
    ensures multiset(FilterMap(stored, MarkerOf))
         == if part.soundPreset == MarkerTrigger then multiset{0.0} else multiset{}
    ensures FilterMap(stored, TimeSigEntryOf) == []
  {
    var ms, f := part.measures, NoteRecordOf(toBarBeat, timeResolution);
    var track := AddPartToSequence(part, partNumber);
    FilterMapPermutation(stored, track, f);
    FilterMapPermutation(stored, track, MarkerOf);
    FilterMapPermutation(stored, track, TimeSigEntryOf);
    ExportedPartSplit(part, partNumber, toBarBeat, timeResolution);
    ExportedPartMarkers(part, partNumber);
    ExportedPartNotes(part, partNumber, toBarBeat, timeResolution);
    assert |multiset(FilterMap(stored, f))| == |FilterMap(stored, f)|;
    assert |multiset(FilterMap(stored, TimeSigEntryOf))| == |FilterMap(stored, TimeSigEntryOf)|;
  }
}

=== FILE: seqs.dfy ===
/** Generic sequence helpers shared by the import and export models: an
    optional value, a filter-and-map over a sequence (the shape of every
    event scan in the parser), flattening, and substring containment. */
module Seqs {

  datatype Option<+T> = None | Some(value: T)

  /** The values `f` yields for the elements of `s`, in order, skipping the
      elements for which it yields `None`. Defined from the back, so that
      scanning one more element appends at the end, as a loop does. */
  function FilterMap<T, U>(s: seq<T>, f: T -> Option<U>): (r: seq<U>)
    ensures |r| <= |s|
    decreases |s|
  {
    if |s| == 0 then []
    else
      var init := FilterMap(s[..|s| - 1], f);
      match f(s[|s| - 1])
      case Some(y) => init + [y]
      case None => init
  }

  /** The indices of `s` at which `f` yields a value, in scanning order. */
  function Hits<T, U>(s: seq<T>, f: T -> Option<U>): (r: seq<nat>)
    ensures forall k :: 0 <= k < |r| ==> r[k] < |s|
    decreases |s|
  {
    if |s| == 0 then []
    else
      var init := Hits(s[..|s| - 1], f);
      if f(s[|s| - 1]).Some? then init + [|s| - 1] else init
  }

  /** Concatenation of a sequence of sequences, in order. */
  function Flatten<T>(ss: seq<seq<T>>): (r: seq<T>)
    decreases |ss|
  {
    if |ss| == 0 then [] else Flatten(ss[..|ss| - 1]) + ss[|ss| - 1]
  }

  /** `FilterMap` applied to each inner sequence on its own, the results
      concatenated in order. */
  function FilterMapEach<T, U>(ss: seq<seq<T>>, f: T -> Option<U>): (r: seq<U>)
    decreases |ss|
  {
    if |ss| == 0 then [] else FilterMapEach(ss[..|ss| - 1], f) + FilterMap(ss[|ss| - 1], f)
  }

  /** Number of elements of `s` satisfying `p`. */
  function Count<T>(s: seq<T>, p: T -> bool): (n: nat)
    decreases |s|
  {
    if |s| == 0 then 0 else Count(s[..|s| - 1], p) + (if p(s[|s| - 1]) then 1 else 0)
  }

  /** `p` occurs in `s` as a contiguous run starting at index `i`. */
  predicate OccursAt<T(==)>(s: seq<T>, p: seq<T>, i: int) {
    0 <= i && i + |p| <= |s| && s[i..i + |p|] == p
  }

  /** `p` occurs somewhere in `s` as a contiguous run. */
  predicate Contains<T(==)>(s: seq<T>, p: seq<T>) {
    exists i :: 0 <= i <= |s| - |p| && OccursAt(s, p, i)
  }

  /** Scanning a concatenation is scanning each half. */
  lemma {:induction false} FilterMapAppend<T, U>(a: seq<T>, b: seq<T>, f: T -> Option<U>)
    ensures FilterMap(a + b, f) == FilterMap(a, f) + FilterMap(b, f)
    decreases |b|
  {
    if |b| == 0 {
      assert a + b == a;
    } else {
      var b' := b[..|b| - 1];
      FilterMapAppend(a, b', f);
      assert (a + b)[..|a + b| - 1] == a + b';
      assert (a + b)[|a + b| - 1] == b[|b| - 1];
    }
  }

  /** Reordering the input reorders the results and nothing more: the
      multiset of values depends only on the multiset of inputs. */
  lemma {:induction false} FilterMapPermutation<T, U>(s: seq<T>, t: seq<T>, f: T -> Option<U>)
    requires multiset(s) == multiset(t)
    ensures multiset(FilterMap(s, f)) == multiset(FilterMap(t, f))
    decreases |s|
  {
    if |s| == 0 {
      assert |t| == |multiset(t)| == 0;
    } else {
      var s', x := s[..|s| - 1], s[|s| - 1];
      assert s == s' + [x];
      assert x in multiset(t);
      var k :| 0 <= k < |t| && t[k] == x;
      var t' := t[..k] + t[k + 1..];
      assert t == t[..k] + [x] + t[k + 1..];
      assert multiset(t) == multiset(t') + multiset{x};
      assert multiset(s) == multiset(s') + multiset{x};
      assert multiset(s') == multiset(s) - multiset{x};
      assert multiset(t') == multiset(t) - multiset{x};
      FilterMapPermutation(s', t', f);
      FilterMapAppend(s', [x], f);
      FilterMapAppend(t[..k] + [x], t[k + 1..], f);
      FilterMapAppend(t[..k], [x], f);
      FilterMapAppend(t[..k], t[k + 1..], f);
    }
  }

  /** The result is exactly the values at the hit positions, the hit
      positions are strictly increasing (scanning order is kept), and every
      position where `f` yields a value is a hit (nothing is dropped). */
  lemma {:induction false} FilterMapExact<T, U>(s: seq<T>, f: T -> Option<U>)
    ensures |Hits(s, f)| == |FilterMap(s, f)|
    ensures forall k :: 0 <= k < |Hits(s, f)| ==> f(s[Hits(s, f)[k]]) == Some(FilterMap(s, f)[k])
    ensures forall k, l :: 0 <= k < l < |Hits(s, f)| ==> Hits(s, f)[k] < Hits(s, f)[l]
    ensures forall i :: 0 <= i < |s| && f(s[i]).Some? ==> i in Hits(s, f)
    decreases |s|
  {
    if |s| > 0 {
      var n := |s| - 1;
      var s' := s[..n];
      FilterMapExact(s', f);
      assert forall i :: 0 <= i < n ==> s'[i] == s[i];
      var h, r := Hits(s, f), FilterMap(s, f);
      var h', r' := Hits(s', f), FilterMap(s', f);
      if f(s[n]).Some? {
        assert h == h' + [n] && r == r' + [f(s[n]).value];
      } else {
        assert h == h' && r == r';
      }
    }
  }

  /** When `f` yields nothing for any element, the scan is empty. */
  lemma {:induction false} FilterMapAllNone<T, U>(s: seq<T>, f: T -> Option<U>)
    requires forall i :: 0 <= i < |s| ==> f(s[i]).None?
    ensures FilterMap(s, f) == []
    decreases |s|
  {
    if |s| > 0 {
      var s' := s[..|s| - 1];
      assert forall i :: 0 <= i < |s'| ==> s'[i] == s[i];
      FilterMapAllNone(s', f);
    }
  }

  /** When `f` yields a value for every element, the scan maps element-wise. */
  lemma {:induction false} FilterMapAllSome<T, U>(s: seq<T>, f: T -> Option<U>)
    requires forall i :: 0 <= i < |s| ==> f(s[i]).Some?
    ensures |FilterMap(s, f)| == |s|
    ensures forall i :: 0 <= i < |s| ==> FilterMap(s, f)[i] == f(s[i]).value
    decreases |s|
  {
    if |s| > 0 {
      var s' := s[..|s| - 1];
      assert forall i :: 0 <= i < |s'| ==> s'[i] == s[i];
      FilterMapAllSome(s', f);
    }
  }

  /** When `p` says exactly where `f` yields a value, the scan has one
      entry per element satisfying `p`. */
  lemma {:induction false} FilterMapCount<T, U>(s: seq<T>, f: T -> Option<U>, p: T -> bool)
    requires forall x :: f(x).Some? <==> p(x)
    ensures |FilterMap(s, f)| == Count(s, p)
    decreases |s|
  {
    if |s| > 0 {
      FilterMapCount(s[..|s| - 1], f, p);
    }
  }

  /** Scanning the inner sequences one by one and concatenating is the same
      as scanning their concatenation. */
  lemma {:induction false} FilterMapEachFlatten<T, U>(ss: seq<seq<T>>, f: T -> Option<U>)
    ensures FilterMapEach(ss, f) == FilterMap(Flatten(ss), f)
    decreases |ss|
  {
    if |ss| > 0 {
      var ss' := ss[..|ss| - 1];
      FilterMapEachFlatten(ss', f);
      FilterMapAppend(Flatten(ss'), ss[|ss| - 1], f);
    }
  }

  /** A sequence contains itself appended to anything. */
  lemma ContainsAppended<T>(s: seq<T>, p: seq<T>)
    ensures Contains(s + p, p)
  {
    assert OccursAt(s + p, p, |s|);
  }
}
